=== FILE: README.md ===
# jsonplaceholder-cli, modelled in Dafny

A single-page client lists, edits and deletes user records of a mock REST service.
It builds its pages by hand and routes between them with a small history-based
router. This project models the decision logic of that client as pure functions
over immutable values. The DOM is replaced by abstract page values, and every
network reply is a parameter.

- `Router` resolves a path to a typed `Route`: `List`, `Edit(id)`, `Error(message)`,
  or `ErrorUnbound` (the table's `error` entry). It also models the path test that
  back/forward navigation applies.
- `Constraints` is the field-name lookup that chooses an edit input's type,
  maxLength, step and disabled flag.
- `Json` is the record shape: `Leaf(text)` or `Obj(entries)`, with property read
  (`Get`) and property write (`SetKey`).
- `ListView` flattens a user into a card of labelled rows. Nested objects become
  nested groups.
- `EditView` flattens a user into one flat sequence of sub-headings and input rows.
  Each input row carries the id from the route (the `edit?id=` digits), its key
  and its constraint.
- `Store` holds the `find` by numeric id and the input-change write.
- `DataService` holds the requests sent to the users resource and the wrappers'
  fallback values.
- `App` holds what each route renders, the four handlers and back/forward
  navigation.

Two behaviours of the code are worth stating up front:

- A failed refresh empties the store: `getUsers` returns `[]` on failure and every
  caller assigns that to the store (js/index.js:115-126, 29-30). See
  `App.RefreshOutcome`.
- The unmatched-route message is `Error 404. Not found.`. The error view shows it
  as `Ops! Error 404. Not found.`.

The input-change handler writes the key at the user's top level, even for an
input that belongs to a nested object. So editing `city` adds a top-level `city`
and leaves `address` as it was. Editing the company's `name` overwrites the user's
own `name`. The model keeps this behaviour as written
(`Store.ChangeInputNestedKey`, `Store.CompanyNameOverwritesUserName`).

## Model

| member | source | states |
|---|---|---|
| Strings.TrailingDigits | js/index.js:349 | the `\d+$` part of the edit pattern: the longest digit run ending the path, with a non-digit (or nothing) before it |
| Strings.TrailingDigitsOfSplit | js/index.js:349 | a digit run that follows a non-digit is exactly the trailing run, so the captured id is unique |
| Strings.DigitsValueLeadingZero | js/index.js:70 | numeric conversion ignores a leading zero |
| Json.Get | js/index.js:70 | `object[key]` is defined exactly when the key is present, and gives the first entry under it |
| Json.SetKey | js/index.js:71 | `object[key] = v`: afterwards the key reads `v`, every other key reads as before, an existing key keeps its position, a new key is appended, distinct keys stay distinct |
| Router.MatchEditIff | js/index.js:349 | `^.*edit\?id=(\d+)$` matches exactly the one-line paths (no `\n`, `\r`, U+2028 or U+2029, which `.` does not cross) ending in `edit?id=` plus a non-empty digit run, and captures that run |
| Router.Routes | js/index.js:342-348 | every error route carries the 404 message |
| Router.RoutesList | js/index.js:337-339 | the list view is reached from `""` and `users` and from no other path |
| Router.RoutesEdit | js/index.js:349-351 | the edit view for `d` is reached exactly from one-line paths ending in `edit?id=` then `d`, overriding the table |
| Router.RoutesEditRoundTrip | js/index.js:16-18 | building `edit?id=<digits>` behind any one-line prefix and routing it gives back those digits; behind a prefix holding a line terminator it gives the 404 view |
| Router.RoutesErrorUnbound | js/index.js:340 | the unbound error view is reached only from the path `error` |
| Router.RoutesNotFound | js/index.js:342-348 | the 404 error view is reached exactly from paths outside the table that are not one-line paths ending in an edit suffix |
| Router.PopCaptureRoutes | js/index.js:372-374 | the popstate test passes exactly for one-line paths ending in `users` or in an edit suffix; a `users` capture routes to the list, an edit capture routes where the whole path does |
| Router.EditCapture | js/index.js:349-351 | a path the edit pattern captures `d` from is an edit path, does not end in `users`, and it and its capture `edit?id=<d>` both route to the edit view for `d` |
| Constraints.ConstraintFor | js/index.js:281-312 | numeric, stepped inputs exactly for `id`/`lat`/`lng`; only `id` disabled; max length 30 exactly for `email`/`phone`/`website` (typed email/tel/url), 100 exactly for `catchPhrase`/`bs` (type unset), 40 text otherwise |
| ListView.ShowObject | js/index.js:189-210 | one row per entry in entry order, labelled `key: `; a text row exactly for a leaf, showing its text |
| ListView.ShowObjectRoundTrip | js/index.js:192-207 | a card loses nothing: reading its rows back gives the record, nesting included |
| ListView.ShowObjectLeaves | js/index.js:189-210 | a card's text rows are the record's leaves, one each, labelled with their keys, in depth-first order |
| ListView.ShowUsers | js/index.js:167-187 | one card per user in store order; each card reads back as its user; both buttons carry the user's id |
| Store.FindUser | js/index.js:70 | `find` gives the first user whose `+id` equals the requested `+id`, and nothing exactly when no user matches |
| Store.FindUserIgnoresLeadingZero | js/index.js:70 | ids are compared as numbers: `007` finds the same user as `7` |
| Store.ChangeInput | js/index.js:66-72 | with a matching user: only the first match changes, its key reads the new value, its other keys are unchanged, an existing key keeps its position and a new key is appended last; with none the write throws and the store stays |
| Store.ChangeInputReadBack | js/index.js:66-72 | after a change, the id finds the same user, and that user holds the new value under the key |
| Store.ChangeInputNestedKey | js/index.js:69-71 | a key that is absent at the top level is appended there, and nested objects are untouched |
| Store.CompanyNameOverwritesUserName | js/index.js:71 | on the service's record shape, editing the company `name` overwrites the user's `name` and leaves `company` as it was |
| EditView.EditRows | js/index.js:265-324 | every input row carries the id it is given (the route's `edit?id=` digits, not the stored id text) and the constraint of its own key, whatever its depth |
| EditView.EditRowsShape | js/index.js:257-326 | the form's input rows are the leaves in depth-first order, its sub-headings are the nested objects' keys in pre-order, and its length is their sum |
| EditView.ListAndEditAgree | js/index.js:189-324 | the list card and the edit form show the same leaves in the same order |
| EditView.EditRowsFromCard | js/index.js:257-326 | the edit form is the list card row for row: each group row becomes its key's sub-heading followed by the group's own items, each text row becomes an input row for its key with the row's text, the route's id and the key's constraint |
| EditView.ShowEdit | js/index.js:237-334 | the form for the first matching user: title `Edit id=<id>`, the general heading first and then that user's card flattened as above; its input rows are the leaves and its sub-headings the nested keys; none exactly when no user matches |
| DataService.ResourceUrlRoundTrip | js/index.js:89-98 | a delete or update URL splits back into the collection URL and the id, for any id without a `/` |
| DataService.GetUsers | js/index.js:115-126 | the fetched list on success, `[]` on failure |
| DataService.DeleteUser | js/index.js:128-140 | a body-less DELETE on `<url>/<id>` for every id, which splits back into the URL and the id when the id has no `/`; the service's response on success, `{}` on failure |
| DataService.UpdateUser | js/index.js:142-154 | a PUT on `<url>/<id>` for every id (splitting back when the id has no `/`), carrying the record as body; the service's response on success, `{}` on failure |
| App.RenderWithUsers | js/index.js:29-35 | the list route shows one card per fetched user; an error route shows its message; only an edit route whose id matches no user throws |
| App.RenderBare | js/index.js:18-19 | an argument-less render throws for the list and unbound error views, and for an edit route whose id matches no user |
| App.RefreshOutcome | js/index.js:57-63 | a refresh adds one GET, pushes `users`, makes the fetched list the store (same length and order), or empties it on failure, and shows every stored user's card |
| App.HandleDelete | js/index.js:22-36 | a DELETE on `<url>/<id>`, then a GET of the collection; the store and page are the refreshed list, whatever the delete returned |
| App.HandleSubmitEdit | js/index.js:38-53 | a PUT on `<url>/<id>`, carrying the stored record of the first matching user (no body when none matches), then a GET; the store and page are the refreshed list |
| App.HandleCancelEdit | js/index.js:55-64 | only a GET; the store and page are the refreshed list |
| App.HandleEdit | js/index.js:13-20 | pushes `edit?id=<id>`; when that path ends in an edit suffix for `d` (a digit id gives `d = id`) it shows the edit view for `d`, otherwise the `Ops! Error 404. Not found.` view |
| App.EditFromCard | js/index.js:181-183 | Edit on a user's card opens the form of that same user when no earlier user has the same numeric id |
| App.PopStateUsers | js/index.js:372-380 | back/forward to a one-line path ending in `users` refetches and shows the list; one holding a line terminator fails the popstate test |
| App.PopStateEdit | js/index.js:381-383 | back/forward to an edit path re-renders that id's edit view from the unchanged store, with no fetch |
| App.PopStateStale | js/index.js:372-374 | exactly the paths failing the popstate test (not one line, or ending in neither `users` nor an edit suffix) depend on the untracked previous capture |

## Left out

- Network I/O: the `fetch` calls, JSON parsing and serialisation (see `DataService.UpdateUser` below) and the `Content-type` header. Every reply is a `Result` parameter because the transport is outside the program.
- Completion order of the un-awaited delete/update against the refresh. Each handler's outcome takes the refresh reply as given. The issue order (write first, then GET) is modelled.
- Console logging, and the spinner's show/hide. Both are side effects only.
- DOM details are not modelled: CSS classes, styles, `hr` separators, the `placeholder`, `id` and `for` attributes of inputs, `innerHTML` clearing and listener wiring. Pages are abstract `View` values. The browser's sanitising of an input's value is not modelled either: a `type=number` input (`id`, `lat`, `lng`) shows non-numeric text as empty, email and url inputs trim surrounding whitespace, and text-like inputs strip line breaks, so what the form shows can differ from `InputRow.value`; the stored records are not affected.
- `history.pushState` is not modelled beyond the path it pushes. The page title is not modelled.
- `window.onload`: its effect is a refresh with no earlier request, which `App.RefreshOutcome` already states.
- The service URL constants. The users collection URL is the `base` parameter of every request; no flow uses the other collections.
- Back/forward to a path that fails the popstate test. It routes by `RegExp.$1` from whatever regular expression matched last. The model returns `StaleCapture` rather than tracking that hidden state.
- Router.Routes: the table lookup uses own keys only. A JavaScript property lookup would also find names inherited by every object (`toString`, `constructor`, ...). The model sends those paths to the 404 view.
- Store.ToNumber: unary `+` on a string is modelled for the empty string (0) and for decimal digit strings only. Every other string is NaN in the model, so whitespace, signs, fractions, exponents and hex forms are not modelled. Digit strings are compared by exact value rather than after rounding to a double, so ids beyond 2^53 that JavaScript would equate (`9007199254740993` and `9007199254740992`) stay distinct. An id that is a boolean is a leaf holding `true` or `false`, so the model gives it NaN where JavaScript gives 1 or 0.
- JSON values: numbers and booleans are leaves holding the text they render as, and `null` is the leaf `""`, which is how `innerText` and `value` show it; its numeric value is then 0, as `+null` is. JavaScript renders `null` otherwise in two places: the cards' `data-id`, which it sets to `null` where the model puts `""`, and the PUT body (see `DataService.UpdateUser` below). Arrays are not distinguished from objects. Entries are taken in `Object.entries` order as given, so the reordering of integer-like keys is not modelled. The store's users are objects, which is what the service returns.
- DataService.UpdateUser: the body is the record as a `Value`, whose leaves hold text only. `JSON.stringify` writes `null`, numbers and booleans unquoted and strings quoted, so the JSON type of each scalar in the sent body is not modelled: `{"id":1,"x":null}` and `{"id":"1","x":""}` are the same body in the model.
- DataService.GetUsers: a successful reply is typed as a list of records. `fetch` does not reject on an HTTP error status, so a non-array JSON body (such as `{}` with a 404 or 500) would become the store and `users.forEach` (js/index.js:167) would throw. The model does not cover that case.
- The `step` value `0,0001` is kept verbatim. How a browser reads a comma in that attribute is outside the model.

=== FILE: app.dfy ===
/** The page: what each route renders, and what each handler and the back/forward
    navigation do to the store, the requests and the page. The completion order of
    un-awaited calls is not modelled: a handler's outcome is given the reply of its
    refresh. */
module App {
  import opened Wrappers
  import opened Strings
  import opened Json
  import opened Router
  import opened Store
  import opened DataService
  import ListView
  import EditView

  /** What the root element shows after a render. `Thrown` is a TypeError raised
      before the root was cleared: the page stays as it was. */
  datatype View =
    | UsersPage(title: string, cards: seq<ListView.Card>)
    | EditPage(form: EditView.EditForm)
    | ErrorPage(message: string)
    | Thrown

  const ErrorPrefix: string := "Ops! "

  /** `${users}`: an array of objects as a template literal renders it. */
  function ArrayText(users: seq<Fields>): string {
    if |users| == 0 then ""
    else if |users| == 1 then "[object Object]"
    else ArrayText(users[..|users| - 1]) + ",[object Object]"
  }

  /** The edit view as a page: the form, or the TypeError of a missing user. */
  function EditOrThrown(users: seq<Fields>, id: string): View {
    match EditView.ShowEdit(users, id)
    case Some(form) => EditPage(form)
    case None => Thrown
  }

  /** `render(APP_ROOT, users)`, the call every handler makes once the refresh settles
      (the store has just been set to `users`). Bound arguments come first, so a bound
      error view keeps its own message. */
  function RenderWithUsers(route: Route, users: seq<Fields>): (v: View)
    ensures route == List ==> v.UsersPage? && |v.cards| == |users|
    ensures v.Thrown? <==> route.Edit? && forall j :: 0 <= j < |users| ==> !IdMatches(users[j], route.id)
    ensures route.Error? ==> v == ErrorPage(ErrorPrefix + route.message)
  {
    match route
    case List => UsersPage(ListView.PageTitle, ListView.ShowUsers(users))
    case Edit(id) => EditOrThrown(users, id)
    case Error(m) => ErrorPage(ErrorPrefix + m)
    case ErrorUnbound => ErrorPage(ErrorPrefix + ArrayText(users))
  }

  /** `render()` with no arguments, as the edit handler and back/forward navigation
      call it: the list view and the unbound error view then find no `users` and no
      root and throw. */
  function RenderBare(route: Route, store: seq<Fields>): (v: View)
    ensures v.Thrown? <==> || route.List? || route.ErrorUnbound?
                           || (route.Edit? && forall j :: 0 <= j < |store| ==> !IdMatches(store[j], route.id))
    ensures route.Error? ==> v == ErrorPage(ErrorPrefix + route.message)
  {
    match route
    case List => Thrown
    case Edit(id) => EditOrThrown(store, id)
    case Error(m) => ErrorPage(ErrorPrefix + m)
    case ErrorUnbound => Thrown
  }

  /** The effect of a handler once its refresh has settled: the requests issued, in
      issue order, the new store, the path pushed on the history and the page shown. */
  datatype Settled = Settled(requests: seq<Request>, store: seq<Fields>, pushed: string, view: View)

  const ListPath: string := "users"

  /** The refresh every handler ends with: fetch the list, make it the store, push
      `users` and render what `users` routes to. */
  function Refresh(base: string, issued: seq<Request>, reply: Result<seq<Fields>, FetchError>): Settled {
    var users := GetUsers(reply);
    Settled(issued + [ReadRequest(base)], users, ListPath, RenderWithUsers(Routes(ListPath), users))
  }

  /** After a refresh the store is the fetched list, same length and same order, and
      the page is its list view; a failed fetch empties the store. */
  lemma RefreshOutcome(base: string, issued: seq<Request>, reply: Result<seq<Fields>, FetchError>)
    ensures var s := Refresh(base, issued, reply);
            && s.requests == issued + [Request(GET, base, None)]
            && s.pushed == "users"
            && (reply.Success? ==> s.store == reply.value)
            && (reply.Failure? ==> s.store == [])
            && s.view.UsersPage?
            && |s.view.cards| == |s.store|
            && (forall i :: 0 <= i < |s.store| ==> ListView.Unshow(s.view.cards[i].rows) == s.store[i])
  {
  }

  /** `handleDelete`: DELETE the user, then refresh whatever the delete's outcome. */
  function HandleDelete(base: string, id: string, reply: Result<seq<Fields>, FetchError>): (s: Settled)
    ensures |s.requests| == 2
    ensures s.requests[0].verb == DELETE && s.requests[1] == Request(GET, base, None)
    ensures s.requests[0].url == base + "/" + id
    ensures NoSlash(id) ==> SplitResource(s.requests[0].url) == Some((base, id))
    ensures s.store == GetUsers(reply)
    ensures s.view == UsersPage(ListView.PageTitle, ListView.ShowUsers(s.store))
  {
    RoutesList(ListPath);
    ResourceUrlRoundTrip(base, id);
    Refresh(base, [DeleteRequest(base, id)], reply)
  }

  /** `handleSubmitEdit`: PUT the stored record of the user (`undefined` when the
      store no longer holds one), then refresh whatever the update's outcome. */
  function HandleSubmitEdit(base: string, store: seq<Fields>, id: string,
                            reply: Result<seq<Fields>, FetchError>): (s: Settled)
    ensures |s.requests| == 2 && s.requests[1] == Request(GET, base, None)
    ensures s.requests[0].verb == PUT
    ensures s.requests[0].url == base + "/" + id
    ensures NoSlash(id) ==> SplitResource(s.requests[0].url) == Some((base, id))
    ensures s.requests[0].body.Some? <==> exists j :: 0 <= j < |store| && IdMatches(store[j], id)
    ensures s.requests[0].body.Some? ==> s.requests[0].body.value == Obj(store[FindUser(store, id).value])
    ensures s.store == GetUsers(reply)
    ensures s.view == UsersPage(ListView.PageTitle, ListView.ShowUsers(s.store))
  {
    RoutesList(ListPath);
    ResourceUrlRoundTrip(base, id);
    var user := match FindUser(store, id)
      case Some(i) => Some(store[i])
      case None => None;
    Refresh(base, [UpdateRequest(base, id, user)], reply)
  }

  /** `handleCancelEdit`: only the refresh; edits already written to the store are not
      reverted, they are dropped when the refreshed list replaces the store. */
  function HandleCancelEdit(base: string, reply: Result<seq<Fields>, FetchError>): (s: Settled)
    ensures s.requests == [Request(GET, base, None)]
    ensures s.store == GetUsers(reply)
    ensures s.view == UsersPage(ListView.PageTitle, ListView.ShowUsers(s.store))
  {
    RoutesList(ListPath);
    Refresh(base, [], reply)
  }

  /** `handleEdit`: push `edit?id=<id>` and render what that path routes to: the edit
      view of a digit id, and the bound 404 view for an id such as `-1`, `1.5` or
      `undefined`, whose path has no edit suffix. */
  function HandleEdit(store: seq<Fields>, id: string): (r: (string, View))
    ensures r.0 == EditMarker + id
    ensures |id| > 0 && AllDigits(id) ==> r.1 == EditOrThrown(store, id)
    ensures forall d :: EditPath(EditMarker + id, d) ==> r.1 == EditOrThrown(store, d)
    ensures (forall d :: !EditPath(EditMarker + id, d)) ==> r.1 == ErrorPage(ErrorPrefix + NotFoundMessage)
  {
    EditPathRoutes(id);
    var path := EditMarker + id;
    (path, RenderBare(Routes(path), store))
  }

  /** Where the path `edit?id=<id>` routes, for every id. */
  lemma EditPathRoutes(id: string)
    ensures |id| > 0 && AllDigits(id) ==> Routes(EditMarker + id) == Edit(id)
    ensures forall d :: EditPath(EditMarker + id, d) ==> Routes(EditMarker + id) == Edit(d)
    ensures (forall d :: !EditPath(EditMarker + id, d)) ==> Routes(EditMarker + id) == Error(NotFoundMessage)
  {
    var path := EditMarker + id;
    if |id| > 0 && AllDigits(id) {
      RoutesEditRoundTrip("", id);
      assert "" + EditMarker + id == path;
    }
    forall d | EditPath(path, d) ensures Routes(path) == Edit(d) {
      RoutesEdit(path, d);
    }
    assert |path| >= |EditMarker|;
    RoutesNotFound(path);
  }

  /** Clicking Edit on the card of a user whose id is a digit string, and whom no
      earlier user shadows, opens the edit form of that very user. */
  lemma EditFromCard(users: seq<Fields>, i: nat, d: string)
    requires i < |users| && |d| > 0 && AllDigits(d)
    requires Get(users[i], "id") == Some(Leaf(d))
    requires forall j :: 0 <= j < i ==> !IdMatches(users[j], d)
    ensures var card := ListView.ShowUsers(users)[i];
            var (path, view) := HandleEdit(users, card.editId);
            && path == EditMarker + d
            && view.EditPage?
            && EditView.Inputs(view.form.items) == LeafPairs(users[i])
            && view.form.submitId == d
  {
    assert IdMatches(users[i], d);
    assert FindUser(users, d) == Some(i);
  }

  /** What back/forward navigation does. A path that passes the popstate test and ends
      in `users` refetches and shows the list; one ending in an edit suffix re-renders
      from the store without fetching. Any other path routes by the last capture of an
      earlier regular expression, which the model does not track. */
  datatype PopOutcome =
    | Refetched(request: Request, store: seq<Fields>, view: View)
    | Rerendered(view: View)
    | StaleCapture

  /** `window.onpopstate` for the path `location.pathname + location.search`. */
  function PopState(base: string, path: string, store: seq<Fields>,
                    reply: Result<seq<Fields>, FetchError>): PopOutcome {
    match PopCapture(path)
    case None => StaleCapture
    case Some(route) =>
      if route == ListPath then
        var users := GetUsers(reply);
        Refetched(ReadRequest(base), users, RenderWithUsers(Routes(route), users))
      else Rerendered(RenderBare(Routes(route), store))
  }

  /** Back/forward to any one-line path ending in `users`, `/users` included, refetches
      and shows the list, even though `routes` itself sends `/users` to the 404 view.
      A path holding a line terminator fails the popstate test. */
  lemma PopStateUsers(base: string, path: string, store: seq<Fields>,
                      reply: Result<seq<Fields>, FetchError>)
    requires EndsWith(path, "users")
    ensures PopState(base, path, store, reply)
            == if SingleLine(path) then
                 Refetched(Request(GET, base, None), GetUsers(reply),
                           UsersPage(ListView.PageTitle, ListView.ShowUsers(GetUsers(reply))))
               else StaleCapture
  {
  }

  /** Back/forward to an edit path re-renders the edit view of that id from the store
      as it is, with no fetch. */
  lemma PopStateEdit(base: string, path: string, d: string, store: seq<Fields>,
                     reply: Result<seq<Fields>, FetchError>)
    requires EditPath(path, d)
    ensures PopState(base, path, store, reply) == Rerendered(EditOrThrown(store, d))
  {
    MatchEditIff(path, d);
    PopCaptureRoutes(path);
    RoutesEdit(path, d);
  }

  /** Only paths failing the popstate test depend on the untracked capture. */
  lemma PopStateStale(base: string, path: string, store: seq<Fields>,
                      reply: Result<seq<Fields>, FetchError>)
    ensures PopState(base, path, store, reply).StaleCapture?
            <==> !UsersPath(path) && forall d :: !EditPath(path, d)
  {
    PopCaptureRoutes(path);
    if MatchEdit(path).Some? {
      MatchEditIff(path, MatchEdit(path).value);
    } else {
      forall d ensures !EditPath(path, d) {
        MatchEditIff(path, d);
      }
    }
  }
}

=== FILE: constraints.dfy ===
/** The input constraints of the edit form. They are chosen by a fixed lookup on the
    field name alone: the nesting depth and the value play no part. */
module Constraints {
  import opened Wrappers

  datatype InputType = Number | Email | Tel | Url | Text

  /** The attributes the edit view sets on one input. `inputType == None` means the
      type attribute is left unset (an input then behaves as a text input). */
  datatype Constraint = Constraint(inputType: Option<InputType>, maxLength: Option<nat>,
                                   step: Option<string>, disabled: bool)

  const CoordinateStep: string := "0,0001"
  const ContactMaxLength: nat := 30
  const LongTextMaxLength: nat := 100
  const DefaultMaxLength: nat := 40

  predicate IsNumericKey(key: string) {
    key == "id" || key == "lat" || key == "lng"
  }

  predicate IsContactKey(key: string) {
    key == "email" || key == "phone" || key == "website"
  }

  predicate IsLongTextKey(key: string) {
    key == "catchPhrase" || key == "bs"
  }

  /** The `switch (key)` of the edit view. */
  function ConstraintFor(key: string): (c: Constraint)
    // numeric inputs: id, lat and lng, and only these carry a step
    ensures c.inputType == Some(Number) <==> IsNumericKey(key)
    ensures c.step.Some? <==> IsNumericKey(key)
    ensures c.step == Some("1") <==> key == "id"
    ensures c.step == Some(CoordinateStep) <==> key == "lat" || key == "lng"
    // only the id is read-only
    ensures c.disabled <==> key == "id"
    // every non-numeric input is length-limited, by one of three limits
    ensures c.maxLength.Some? <==> !IsNumericKey(key)
    ensures c.maxLength == Some(ContactMaxLength) <==> IsContactKey(key)
    ensures c.maxLength == Some(LongTextMaxLength) <==> IsLongTextKey(key)
    ensures key == "email" ==> c.inputType == Some(Email)
    ensures key == "phone" ==> c.inputType == Some(Tel)
    ensures key == "website" ==> c.inputType == Some(Url)
    // catchPhrase and bs are the only inputs whose type is left unset
    ensures c.inputType.None? <==> IsLongTextKey(key)
    // the default row for every other name
    ensures !IsNumericKey(key) && !IsContactKey(key) && !IsLongTextKey(key)
            ==> c == Constraint(Some(Text), Some(DefaultMaxLength), None, false)
  {
    match key
    case "lat" => Constraint(Some(Number), None, Some(CoordinateStep), false)
    case "lng" => Constraint(Some(Number), None, Some(CoordinateStep), false)
    case "id" => Constraint(Some(Number), None, Some("1"), true)
    case "email" => Constraint(Some(Email), Some(ContactMaxLength), None, false)
    case "phone" => Constraint(Some(Tel), Some(ContactMaxLength), None, false)
    case "website" => Constraint(Some(Url), Some(ContactMaxLength), None, false)
    case "catchPhrase" => Constraint(None, Some(LongTextMaxLength), None, false)
    case "bs" => Constraint(None, Some(LongTextMaxLength), None, false)
    case _ => Constraint(Some(Text), Some(DefaultMaxLength), None, false)
  }
}

=== FILE: data_service.dfy ===
/** The data layer: the requests the client sends to the users resource, and the
    wrappers that turn a failed call into a neutral value. The transport itself is
    outside the model; a call's outcome arrives as a `Result`. */
module DataService {
  import opened Wrappers
  import opened Json

  datatype Verb = GET | PUT | DELETE

  /** A request as issued: verb, target URL and JSON body (`None` when there is no
      body, or when the body to serialise is `undefined`). */
  datatype Request = Request(verb: Verb, url: string, body: Option<Value>)

  /** Why an awaited call was rejected: the transport failed or the body was not JSON. */
  datatype FetchError = NetworkError | ParseError

  /** The empty object `{}` the delete and update wrappers start from. */
  const EmptyObject: Value := Obj([])

  /** `${serviceURL}/${resourceID}` */
  function ResourceUrl(base: string, id: string): string {
    base + "/" + id
  }

  /** The position of the last `/` in `s`, if any. */
  function LastSlash(s: string): (r: Option<nat>)
    ensures r.Some? ==> r.value < |s| && s[r.value] == '/'
                        && forall j :: r.value < j < |s| ==> s[j] != '/'
    ensures r.None? ==> forall j :: 0 <= j < |s| ==> s[j] != '/'
  {
    if |s| == 0 then None
    else if s[|s| - 1] == '/' then Some(|s| - 1)
    else LastSlash(s[..|s| - 1])
  }

  /** Splits a resource URL into its collection URL and its last path segment. */
  function SplitResource(url: string): Option<(string, string)> {
    match LastSlash(url)
    case None => None
    case Some(k) => Some((url[..k], url[k + 1..]))
  }

  predicate NoSlash(s: string) {
    forall j :: 0 <= j < |s| ==> s[j] != '/'
  }

  /** A resource URL names its collection and the id it was built from, for any id
      without a `/` in it. */
  lemma ResourceUrlRoundTrip(base: string, id: string)
    ensures NoSlash(id) ==> SplitResource(ResourceUrl(base, id)) == Some((base, id))
  {
    if !NoSlash(id) {
      return;
    }
    var url := ResourceUrl(base, id);
    var k := LastSlash(url);
    assert url[|base|] == '/';
    assert k.Some? && k.value == |base|;
    assert url[..|base|] == base;
    assert url[|base| + 1..] == id;
  }

  /** `getDataAsync`: GET on the collection URL. */
  function ReadRequest(base: string): Request {
    Request(GET, base, None)
  }

  /** `deleteDataAsync`: DELETE on the resource URL, no body. */
  function DeleteRequest(base: string, id: string): Request {
    Request(DELETE, ResourceUrl(base, id), None)
  }

  /** `updateDataAsync`: PUT on the resource URL with the record as JSON body. */
  function UpdateRequest(base: string, id: string, user: Option<Fields>): Request {
    Request(PUT, ResourceUrl(base, id), match user case Some(u) => Some(Obj(u)) case None => None)
  }

  /** The try/catch of the three wrappers: the service's result when the call
      succeeds, otherwise the neutral value they were initialised with. */
  function Settle<T>(reply: Result<T, FetchError>, neutral: T): (r: T)
    ensures reply.Success? ==> r == reply.value
    ensures reply.Failure? ==> r == neutral
  {
    match reply
    case Success(v) => v
    case Failure(_) => neutral
  }

  /** `getUsers`: the fetched list, or `[]` when the call fails. */
  function GetUsers(reply: Result<seq<Fields>, FetchError>): (users: seq<Fields>)
    ensures reply.Success? ==> users == reply.value
    ensures reply.Failure? ==> users == []
  {
    Settle(reply, [])
  }

  /** `deleteUser`: the request it issues for `id`, and the response it resolves to,
      `{}` when the call fails. */
  function DeleteUser(base: string, id: string, reply: Result<Value, FetchError>): (r: (Request, Value))
    ensures r.0.verb == DELETE && r.0.body.None?
    ensures r.0.url == base + "/" + id
    ensures NoSlash(id) ==> SplitResource(r.0.url) == Some((base, id))
    ensures reply.Success? ==> r.1 == reply.value
    ensures reply.Failure? ==> r.1 == EmptyObject
  {
    ResourceUrlRoundTrip(base, id);
    (DeleteRequest(base, id), Settle(reply, EmptyObject))
  }

  /** `updateUser`: the request it issues for `id` with the record as body, and the
      response it resolves to, `{}` when the call fails. */
  function UpdateUser(base: string, id: string, user: Option<Fields>, reply: Result<Value, FetchError>): (r: (Request, Value))
    ensures r.0.verb == PUT
    ensures r.0.body.Some? <==> user.Some?
    ensures user.Some? ==> r.0.body == Some(Obj(user.value))
    ensures r.0.url == base + "/" + id
    ensures NoSlash(id) ==> SplitResource(r.0.url) == Some((base, id))
    ensures reply.Success? ==> r.1 == reply.value
    ensures reply.Failure? ==> r.1 == EmptyObject
  {
    ResourceUrlRoundTrip(base, id);
    (UpdateRequest(base, id, user), Settle(reply, EmptyObject))
  }
}

=== FILE: edit_view.dfy ===
/** The edit view: the user found for the route's id, flattened into one flat
    sequence of sub-headings (one per nested object) and input rows (one per leaf). */
module EditView {
  import opened Wrappers
  import opened Json
  import opened Store
  import opened Constraints
  import ListView

  /** An item of the form. An input row is labelled `key: `, shows `value`, and
      carries the id from the route (the `edit?id=` digits) and its own key as data
      attributes. */
  datatype Item =
    | Header(text: string)
    | InputRow(key: string, value: string, userId: string, constraint: Constraint)

  datatype EditForm = EditForm(title: string, items: seq<Item>, submitId: string)

  const GeneralHeader: string := "General user information"
  const TitlePrefix: string := "Edit id="

  /** `_addWrapRows`: entries in order; a nested object adds its sub-heading and
      then its own rows, a leaf adds one input row. */
  function EditRows(fs: Fields, userId: string): (items: seq<Item>)
    ensures forall i :: 0 <= i < |items| && items[i].InputRow? ==>
              && items[i].userId == userId
              && items[i].constraint == ConstraintFor(items[i].key)
  {
    if |fs| == 0 then []
    else
      var (k, v) := fs[0];
      var here := match v
        case Leaf(t) => [InputRow(k, t, userId, ConstraintFor(k))]
        case Obj(sub) => assert v < fs[0]; [Header(k)] + EditRows(sub, userId);
      here + EditRows(fs[1..], userId)
  }

  /** The edit form read off a card's rows: a group row becomes the sub-heading of
      its key followed by its own rows, a text row becomes an input row for its key
      with the row's text, the id from the route and the key's constraint. */
  function FormOf(rows: seq<ListView.Row>, userId: string): seq<Item> {
    if |rows| == 0 then []
    else
      var cell := rows[0].cell;
      var key := ListView.KeyOf(rows[0].name);
      var here := match cell
        case Text(t) => [InputRow(key, t, userId, ConstraintFor(key))]
        case Group(sub) => assert cell < rows[0]; [Header(key)] + FormOf(sub, userId);
      here + FormOf(rows[1..], userId)
  }

  /** The edit form and the list card of the same record agree row for row: the form
      is the card with every group turned into a sub-heading followed by the group's
      items, and every text row into an input row, in the same order. */
  lemma {:induction false} EditRowsFromCard(fs: Fields, userId: string)
    ensures EditRows(fs, userId) == FormOf(ListView.ShowObject(fs), userId)
  {
    if |fs| > 0 {
      var rows := ListView.ShowObject(fs);
      assert rows[1..] == ListView.ShowObject(fs[1..]);
      EditRowsFromCard(fs[1..], userId);
      var (k, v) := fs[0];
      assert ListView.KeyOf(ListView.Label(k)) == k;
      match v
      case Leaf(_) =>
      case Obj(sub) =>
        assert v < fs[0];
        EditRowsFromCard(sub, userId);
    }
  }

  /** The (key, value) of every input row, in form order. */
  function Inputs(items: seq<Item>): seq<(string, string)> {
    if |items| == 0 then []
    else (if items[0].InputRow? then [(items[0].key, items[0].value)] else []) + Inputs(items[1..])
  }

  /** The text of every sub-heading, in form order. */
  function Headers(items: seq<Item>): seq<string> {
    if |items| == 0 then []
    else (if items[0].Header? then [items[0].text] else []) + Headers(items[1..])
  }

  lemma {:induction false} InputsAppend(a: seq<Item>, b: seq<Item>)
    ensures Inputs(a + b) == Inputs(a) + Inputs(b)
  {
    if |a| == 0 {
      assert a + b == b;
    } else {
      var head := if a[0].InputRow? then [(a[0].key, a[0].value)] else [];
      assert (a + b)[0] == a[0];
      assert (a + b)[1..] == a[1..] + b;
      InputsAppend(a[1..], b);
      assert Inputs(a + b) == head + Inputs(a[1..] + b);
      assert Inputs(a) == head + Inputs(a[1..]);
    }
  }

  lemma {:induction false} HeadersAppend(a: seq<Item>, b: seq<Item>)
    ensures Headers(a + b) == Headers(a) + Headers(b)
  {
    if |a| == 0 {
      assert a + b == b;
    } else {
      var head := if a[0].Header? then [a[0].text] else [];
      assert (a + b)[0] == a[0];
      assert (a + b)[1..] == a[1..] + b;
      HeadersAppend(a[1..], b);
      assert Headers(a + b) == head + Headers(a[1..] + b);
      assert Headers(a) == head + Headers(a[1..]);
    }
  }

  lemma InputsHeadersAppend(a: seq<Item>, b: seq<Item>)
    ensures Inputs(a + b) == Inputs(a) + Inputs(b)
    ensures Headers(a + b) == Headers(a) + Headers(b)
  {
    InputsAppend(a, b);
    HeadersAppend(a, b);
  }

  lemma {:induction false} InputsHeadersCount(items: seq<Item>)
    ensures |items| == |Inputs(items)| + |Headers(items)|
  {
    if |items| > 0 {
      InputsHeadersCount(items[1..]);
    }
  }

  /** The input rows of the form are the record's leaves, in depth-first order. */
  lemma {:induction false} EditRowsInputs(fs: Fields, userId: string)
    ensures Inputs(EditRows(fs, userId)) == LeafPairs(fs)
  {
    if |fs| > 0 {
      var (k, v) := fs[0];
      var rest := EditRows(fs[1..], userId);
      EditRowsInputs(fs[1..], userId);
      match v
      case Leaf(t) =>
        var row := [InputRow(k, t, userId, ConstraintFor(k))];
        assert EditRows(fs, userId) == row + rest;
        InputsAppend(row, rest);
      case Obj(sub) =>
        assert v < fs[0];
        var inner := EditRows(sub, userId);
        EditRowsInputs(sub, userId);
        assert EditRows(fs, userId) == [Header(k)] + (inner + rest);
        InputsAppend(inner, rest);
        InputsAppend([Header(k)], inner + rest);
    }
  }

  /** The sub-headings of the form are the nested objects' keys, in pre-order. */
  lemma {:induction false} EditRowsHeaders(fs: Fields, userId: string)
    ensures Headers(EditRows(fs, userId)) == ObjectKeys(fs)
  {
    if |fs| > 0 {
      var (k, v) := fs[0];
      var rest := EditRows(fs[1..], userId);
      EditRowsHeaders(fs[1..], userId);
      match v
      case Leaf(t) =>
        var row := [InputRow(k, t, userId, ConstraintFor(k))];
        assert EditRows(fs, userId) == row + rest;
        HeadersAppend(row, rest);
      case Obj(sub) =>
        assert v < fs[0];
        var inner := EditRows(sub, userId);
        EditRowsHeaders(sub, userId);
        assert EditRows(fs, userId) == [Header(k)] + (inner + rest);
        HeadersAppend(inner, rest);
        HeadersAppend([Header(k)], inner + rest);
    }
  }

  /** The form holds one input row per leaf, carrying the leaf's key and text in
      depth-first order, and one sub-heading per nested object, in depth-first
      pre-order; nothing else. */
  lemma EditRowsShape(fs: Fields, userId: string)
    ensures Inputs(EditRows(fs, userId)) == LeafPairs(fs)
    ensures Headers(EditRows(fs, userId)) == ObjectKeys(fs)
    ensures |EditRows(fs, userId)| == |ObjectKeys(fs)| + |LeafPairs(fs)|
  {
    EditRowsInputs(fs, userId);
    EditRowsHeaders(fs, userId);
    InputsHeadersCount(EditRows(fs, userId));
  }

  /** The list card and the edit form show the same leaves: the card's text rows are
      the form's input rows, in the same order, with the key as row label. */
  lemma ListAndEditAgree(fs: Fields, userId: string)
    ensures ListView.TextRows(ListView.ShowObject(fs)) == ListView.Labelled(Inputs(EditRows(fs, userId)))
  {
    ListView.ShowObjectLeaves(fs);
    EditRowsShape(fs, userId);
  }

  /** `showEdit`: the form for the first user whose id matches. When none matches,
      `Object.entries(undefined)` throws before the page is touched (`None`). */
  function ShowEdit(users: seq<Fields>, userId: string): (r: Option<EditForm>)
    ensures r.None? <==> forall j :: 0 <= j < |users| ==> !IdMatches(users[j], userId)
    ensures r.Some? ==> var user := users[FindUser(users, userId).value];
              && r.value.title == TitlePrefix + userId
              && r.value.submitId == userId
              && |r.value.items| > 0 && r.value.items[0] == Header(GeneralHeader)
              && Inputs(r.value.items) == LeafPairs(user)
              && Headers(r.value.items) == [GeneralHeader] + ObjectKeys(user)
              && |r.value.items| == 1 + |ObjectKeys(user)| + |LeafPairs(user)|
              && r.value.items == [Header(GeneralHeader)] + FormOf(ListView.ShowObject(user), userId)
  {
    match FindUser(users, userId)
    case None => None
    case Some(i) =>
      var rows := EditRows(users[i], userId);
      EditRowsShape(users[i], userId);
      EditRowsFromCard(users[i], userId);
      InputsHeadersAppend([Header(GeneralHeader)], rows);
      Some(EditForm(TitlePrefix + userId, [Header(GeneralHeader)] + rows, userId))
  }
}

=== FILE: json.dfy ===
/** The JSON-like shape of a user record as the client sees it after parsing:
    a leaf holds the text a scalar renders as, an object holds its entries in
    `Object.entries` order. A record (a user) is the entry list of a top-level object. */
module Json {
  import opened Wrappers

  datatype Value = Leaf(text: string) | Obj(fields: seq<(string, Value)>)

  type Fields = seq<(string, Value)>

  predicate HasKey(fs: Fields, key: string) {
    exists i :: 0 <= i < |fs| && fs[i].0 == key
  }

  /** No key occurs twice, as in every object `JSON.parse` produces. */
  predicate DistinctKeys(fs: Fields) {
    forall i, j :: 0 <= i < j < |fs| ==> fs[i].0 != fs[j].0
  }

  /** Property read `object[key]`: the value of the first entry with that key;
      `None` stands for `undefined`. */
  function Get(fs: Fields, key: string): (r: Option<Value>)
    ensures r.Some? <==> HasKey(fs, key)
    ensures r.Some? ==> exists i :: 0 <= i < |fs| && fs[i] == (key, r.value)
                                    && forall j :: 0 <= j < i ==> fs[j].0 != key
  {
    if |fs| == 0 then None
    else if fs[0].0 == key then Some(fs[0].1)
    else
      var r := Get(fs[1..], key);
      assert HasKey(fs, key) ==> HasKey(fs[1..], key) by {
        if HasKey(fs, key) {
          var i :| 0 <= i < |fs| && fs[i].0 == key;
          assert fs[1..][i - 1].0 == key;
        }
      }
      if r.Some? then
        var i :| 0 <= i < |fs[1..]| && fs[1..][i] == (key, r.value)
                 && forall j :: 0 <= j < i ==> fs[1..][j].0 != key;
        assert fs[i + 1] == (key, r.value);
        r
      else r
  }

  /** Overwrites the value of every entry whose key is `key`, keeping positions. */
  function Replace(fs: Fields, key: string, v: Value): (r: Fields)
    ensures |r| == |fs|
    ensures forall i :: 0 <= i < |fs| ==> r[i].0 == fs[i].0
    ensures forall i :: 0 <= i < |fs| ==> r[i].1 == (if fs[i].0 == key then v else fs[i].1)
  {
    if |fs| == 0 then []
    else [(fs[0].0, if fs[0].0 == key then v else fs[0].1)] + Replace(fs[1..], key, v)
  }

  /** Reading a key after appending an entry under a key that was absent. */
  lemma {:induction false} GetAppend(fs: Fields, key: string, v: Value, k: string)
    requires !HasKey(fs, key)
    ensures Get(fs + [(key, v)], k) == if k == key then Some(v) else Get(fs, k)
  {
    if |fs| == 0 {
    } else {
      assert (fs + [(key, v)])[1..] == fs[1..] + [(key, v)];
      assert !HasKey(fs[1..], key);
      GetAppend(fs[1..], key, v, k);
    }
  }

  /** Reading a key after overwriting the entries under `key`. */
  lemma {:induction false} GetReplace(fs: Fields, key: string, v: Value, k: string)
    requires HasKey(fs, key)
    ensures Get(Replace(fs, key, v), k) == if k == key then Some(v) else Get(fs, k)
  {
  }

  /** Property write `object[key] = v` on an object: an existing key keeps its
      position and takes the new value, a new key is appended last. */
  function SetKey(fs: Fields, key: string, v: Value): (r: Fields)
    ensures Get(r, key) == Some(v)
    ensures forall k :: k != key ==> Get(r, k) == Get(fs, k)
    ensures HasKey(fs, key) ==> |r| == |fs| && forall i :: 0 <= i < |fs| ==> r[i].0 == fs[i].0
    ensures !HasKey(fs, key) ==> r == fs + [(key, v)]
    ensures DistinctKeys(fs) ==> DistinctKeys(r)
  {
    if HasKey(fs, key) then
      var r := Replace(fs, key, v);
      GetReplace(fs, key, v, key);
      forall k | k != key ensures Get(r, k) == Get(fs, k) {
        GetReplace(fs, key, v, k);
      }
      r
    else
      var r := fs + [(key, v)];
      GetAppend(fs, key, v, key);
      forall k | k != key ensures Get(r, k) == Get(fs, k) {
        GetAppend(fs, key, v, k);
      }
      r
  }

  /** The (key, text) pair of every leaf, in depth-first order of the entries. */
  function LeafPairs(fs: Fields): seq<(string, string)>
  {
    if |fs| == 0 then []
    else
      var (k, v) := fs[0];
      match v
      case Leaf(t) => [(k, t)] + LeafPairs(fs[1..])
      case Obj(sub) => assert v < fs[0]; LeafPairs(sub) + LeafPairs(fs[1..])
  }

  /** The key of every nested object, in depth-first (pre-)order. */
  function ObjectKeys(fs: Fields): seq<string>
  {
    if |fs| == 0 then []
    else
      var (k, v) := fs[0];
      match v
      case Leaf(_) => ObjectKeys(fs[1..])
      case Obj(sub) => assert v < fs[0]; [k] + ObjectKeys(sub) + ObjectKeys(fs[1..])
  }
}

=== FILE: list_view.dfy ===
/** The list view: one card per user, each card flattening the user record
    depth-first into labelled rows, nested objects becoming nested groups. */
module ListView {
  import opened Wrappers
  import opened Json

  /** A row shows either the text of a leaf or the group of rows of a nested object. */
  datatype Cell = Text(text: string) | Group(rows: seq<Row>)
  datatype Row = Row(name: string, cell: Cell)

  /** One card: the record's rows, then the Edit and Delete buttons, each carrying
      the user's id as its data attribute. */
  datatype Card = Card(rows: seq<Row>, editId: string, deleteId: string)

  const LabelSuffix: string := ": "
  const PageTitle: string := "Users"

  function Label(key: string): string {
    key + LabelSuffix
  }

  /** The key a row label was made from: the label without its suffix. */
  function KeyOf(name: string): string {
    if |name| >= |LabelSuffix| then name[..|name| - |LabelSuffix|] else name
  }

  /** `_showObject`: one row per entry, in entry order. */
  function ShowObject(fs: Fields): (rows: seq<Row>)
    ensures |rows| == |fs|
    ensures forall i :: 0 <= i < |fs| ==> rows[i].name == Label(fs[i].0)
    ensures forall i :: 0 <= i < |fs| ==> (rows[i].cell.Text? <==> fs[i].1.Leaf?)
    ensures forall i :: 0 <= i < |fs| && fs[i].1.Leaf? ==> rows[i].cell == Text(fs[i].1.text)
  {
    if |fs| == 0 then []
    else
      var (k, v) := fs[0];
      var cell := match v
        case Leaf(t) => Text(t)
        case Obj(sub) => assert v < fs[0]; Group(ShowObject(sub));
      [Row(Label(k), cell)] + ShowObject(fs[1..])
  }

  /** Reads a card's rows back into a record: the inverse of `ShowObject`. */
  function Unshow(rows: seq<Row>): Fields {
    if |rows| == 0 then []
    else
      var Row(name, cell) := rows[0];
      var key := KeyOf(name);
      var v := match cell
        case Text(t) => Leaf(t)
        case Group(sub) => assert cell < rows[0]; Obj(Unshow(sub));
      [(key, v)] + Unshow(rows[1..])
  }

  /** A card loses nothing: every key, every value and the nesting can be read back. */
  lemma {:induction false} ShowObjectRoundTrip(fs: Fields)
    ensures Unshow(ShowObject(fs)) == fs
  {
    if |fs| > 0 {
      var rows := ShowObject(fs);
      assert rows[1..] == ShowObject(fs[1..]);
      ShowObjectRoundTrip(fs[1..]);
      var (k, v) := fs[0];
      assert Label(k)[..|Label(k)| - |LabelSuffix|] == k;
      match v
      case Leaf(_) =>
      case Obj(sub) =>
        assert v < fs[0];
        ShowObjectRoundTrip(sub);
    }
  }

  /** The (name, text) of every text row of a card, depth-first. */
  function TextRows(rows: seq<Row>): seq<(string, string)> {
    if |rows| == 0 then []
    else
      var Row(name, cell) := rows[0];
      match cell
      case Text(t) => [(name, t)] + TextRows(rows[1..])
      case Group(sub) => assert cell < rows[0]; TextRows(sub) + TextRows(rows[1..])
  }

  /** Each (key, text) pair with its key turned into a row label. */
  function Labelled(ps: seq<(string, string)>): (r: seq<(string, string)>)
    ensures |r| == |ps|
    ensures forall i :: 0 <= i < |ps| ==> r[i] == (Label(ps[i].0), ps[i].1)
  {
    seq(|ps|, i requires 0 <= i < |ps| => (Label(ps[i].0), ps[i].1))
  }

  lemma LabelledAppend(a: seq<(string, string)>, b: seq<(string, string)>)
    ensures Labelled(a + b) == Labelled(a) + Labelled(b)
  {
  }

  /** A card shows exactly one text row per leaf of the record, labelled with the
      leaf's key, in depth-first order; objects contribute no text row of their own. */
  lemma {:induction false} ShowObjectLeaves(fs: Fields)
    ensures TextRows(ShowObject(fs)) == Labelled(LeafPairs(fs))
    ensures |TextRows(ShowObject(fs))| == |LeafPairs(fs)|
  {
    if |fs| > 0 {
      var rows := ShowObject(fs);
      assert rows[1..] == ShowObject(fs[1..]);
      ShowObjectLeaves(fs[1..]);
      var (k, v) := fs[0];
      match v
      case Leaf(t) =>
        LabelledAppend([(k, t)], LeafPairs(fs[1..]));
      case Obj(sub) =>
        assert v < fs[0];
        ShowObjectLeaves(sub);
        LabelledAppend(LeafPairs(sub), LeafPairs(fs[1..]));
    }
  }

  /** `String(user.id)`: the text the id data attribute receives. */
  function IdAttribute(user: Fields): string {
    match Get(user, "id")
    case Some(Leaf(t)) => t
    case Some(Obj(_)) => "[object Object]"
    case None => "undefined"
  }

  lemma ShowObjectRoundTripAll(users: seq<Fields>)
    ensures forall i :: 0 <= i < |users| ==> Unshow(ShowObject(users[i])) == users[i]
  {
    forall i | 0 <= i < |users| {
      ShowObjectRoundTrip(users[i]);
    }
  }

  /** `showUsers`: one card per user, in store order; a card shows the whole record
      and both of its buttons carry the user's id. */
  function ShowUsers(users: seq<Fields>): (cards: seq<Card>)
    ensures |cards| == |users|
    ensures forall i :: 0 <= i < |users| ==> Unshow(cards[i].rows) == users[i]
    ensures forall i :: 0 <= i < |users| ==> cards[i].editId == cards[i].deleteId
    ensures forall i :: 0 <= i < |users| && Get(users[i], "id").Some? && Get(users[i], "id").value.Leaf?
              ==> cards[i].editId == Get(users[i], "id").value.text
  {
    ShowObjectRoundTripAll(users);
    seq(|users|, i requires 0 <= i < |users| =>
      Card(ShowObject(users[i]), IdAttribute(users[i]), IdAttribute(users[i])))
  }
}

=== FILE: router.dfy ===
/** The hand-rolled router: a path string is resolved to the view that renders it.
    The table of literal paths is consulted first, and a path ending in
    `edit?id=<digits>` overrides whatever the table gave. */
module Router {
  import opened Wrappers
  import opened Strings

  const EditMarker: string := "edit?id="
  const NotFoundMessage: string := "Error 404. Not found."

  /** The view a path resolves to. `ErrorUnbound` is the table's `error` entry:
      the error view with none of its arguments bound. */
  datatype Route = List | Edit(id: string) | Error(message: string) | ErrorUnbound

  /** The path is one line and ends in `edit?id=` followed by the non-empty digit run `d`. */
  predicate EditPath(path: string, d: string) {
    SingleLine(path) && |d| > 0 && AllDigits(d) && EndsWith(path, EditMarker + d)
  }

  /** The literal routes table, own keys only. */
  function TableLookup(path: string): Option<Route> {
    if path == "" || path == "users" then Some(List)
    else if path == "error" then Some(ErrorUnbound)
    else None
  }

  /** The test of `^.*edit\?id=(\d+)$` and its capture group. Without the `s` flag
      `.` stops at a line terminator, so a path holding one never matches. */
  function MatchEdit(path: string): Option<string> {
    var d := TrailingDigits(path);
    if SingleLine(path) && |d| > 0 && EndsWith(path[..|path| - |d|], EditMarker) then Some(d) else None
  }

  lemma EditPathMatches(path: string, d: string)
    requires EditPath(path, d)
    ensures MatchEdit(path) == Some(d)
  {
    var p := path[..|path| - |d| - |EditMarker|];
    assert path == (p + EditMarker) + d;
    TrailingDigitsOfSplit(p + EditMarker, d);
    assert path[..|path| - |d|] == p + EditMarker;
  }

  lemma MatchIsEditPath(path: string, d: string)
    requires MatchEdit(path) == Some(d)
    ensures EditPath(path, d)
  {
  }

  /** The pattern matches exactly the edit paths, and captures their digit run. */
  lemma MatchEditIff(path: string, d: string)
    ensures MatchEdit(path) == Some(d) <==> EditPath(path, d)
  {
    if EditPath(path, d) {
      EditPathMatches(path, d);
    }
    if MatchEdit(path) == Some(d) {
      MatchIsEditPath(path, d);
    }
  }

  /** `routes(path)`: the table entry, or the 404 error view when there is none,
      replaced by the edit view when the edit pattern matches. */
  function Routes(path: string): (r: Route)
    ensures r.Error? ==> r.message == NotFoundMessage
  {
    var view := TableLookup(path).GetOr(Error(NotFoundMessage));
    match MatchEdit(path)
    case Some(id) => Edit(id)
    case None => view
  }

  /** The empty path and `users` resolve to the list view, and nothing else does. */
  lemma RoutesList(path: string)
    ensures Routes(path) == List <==> path == "" || path == "users"
  {
  }

  /** A path resolves to the edit view for `d` exactly when it ends in `edit?id=`
      followed by the digit run `d`; the table plays no part. */
  lemma RoutesEdit(path: string, d: string)
    ensures Routes(path) == Edit(d) <==> EditPath(path, d)
  {
    MatchEditIff(path, d);
  }

  /** Building an edit path from any digit run and resolving it gives back that run
      when the prefix is one line; a prefix with a line terminator gives the 404 view. */
  lemma RoutesEditRoundTrip(prefix: string, d: string)
    requires |d| > 0 && AllDigits(d)
    ensures Routes(prefix + EditMarker + d) == if SingleLine(prefix) then Edit(d) else Error(NotFoundMessage)
  {
    var path := prefix + EditMarker + d;
    assert path[|path| - |EditMarker + d|..] == EditMarker + d;
    assert SingleLine(path) <==> SingleLine(prefix) by {
      assert forall i :: 0 <= i < |prefix| ==> path[i] == prefix[i];
      assert forall i :: |prefix| <= i < |path| ==> IsDigit(path[i]) || path[i] in EditMarker;
    }
    RoutesEdit(path, d);
    if !SingleLine(prefix) {
      RoutesNotFound(path);
    }
  }

  /** The table's `error` key is the only path that yields the unbound error view. */
  lemma RoutesErrorUnbound(path: string)
    ensures Routes(path) == ErrorUnbound <==> path == "error"
  {
  }

  /** Every other path, one neither in the table nor ending in an edit suffix,
      resolves to the 404 error view. */
  lemma RoutesNotFound(path: string)
    ensures Routes(path) == Error(NotFoundMessage)
            <==> path != "" && path != "users" && path != "error" && forall d :: !EditPath(path, d)
  {
    if Routes(path) == Error(NotFoundMessage) {
      forall d ensures !EditPath(path, d) {
        MatchEditIff(path, d);
      }
    } else if path != "" && path != "users" && path != "error" {
      var d := MatchEdit(path).value;
      MatchEditIff(path, d);
    }
  }

  /** The path is one line and ends in `users`. */
  predicate UsersPath(path: string) {
    SingleLine(path) && EndsWith(path, "users")
  }

  /** The popstate test `^.*(edit\?id=\d+|users)$` and its capture `RegExp.$1`;
      `None` when the path fails the test, as any path holding a line terminator does. */
  function PopCapture(path: string): Option<string> {
    match MatchEdit(path)
    case Some(d) => Some(EditMarker + d)
    case None => if SingleLine(path) && EndsWith(path, "users") then Some("users") else None
  }

  /** A path passes the popstate test exactly when it is one line ending in `users` or
      in an edit suffix. The capture of a `users` path routes to the list view; the
      capture of an edit path routes where the whole path does. */
  lemma PopCaptureRoutes(path: string)
    ensures PopCapture(path).Some? <==> UsersPath(path) || exists d :: EditPath(path, d)
    ensures PopCapture(path) == Some("users") <==> UsersPath(path)
    ensures PopCapture(path) == Some("users") ==> Routes("users") == List
    ensures PopCapture(path).Some? && PopCapture(path) != Some("users")
            ==> Routes(PopCapture(path).value) == Routes(path) && Routes(path).Edit?
  {
    match MatchEdit(path)
    case Some(d) =>
      EditCapture(path, d);
    case None =>
      forall d ensures !EditPath(path, d) {
        MatchEditIff(path, d);
      }
  }

  /** An edit path does not end in `users`, and its capture routes as it does. */
  lemma EditCapture(path: string, d: string)
    requires MatchEdit(path) == Some(d)
    ensures EditPath(path, d) && !UsersPath(path)
    ensures Routes(EditMarker + d) == Routes(path) == Edit(d)
  {
    MatchEditIff(path, d);
    RoutesEdit(path, d);
    assert IsDigit(d[|d| - 1]);
    assert path[|path| - 1] == d[|d| - 1];
    RoutesEditRoundTrip("", d);
    assert "" + EditMarker + d == EditMarker + d;
  }
}

=== FILE: store.dfy ===
/** The in-memory user store: the lookup by numeric id shared by the edit view and
    the handlers, and the field write that every input change performs. */
module Store {
  import opened Wrappers
  import opened Strings
  import opened Json

  /** A JavaScript number as far as ids need one: NaN, or a non-negative integer. */
  datatype JsNumber = NaN | Num(n: nat)

  /** Unary `+` on a string: the empty string is 0, a decimal digit string is its
      value, anything else is NaN. */
  function ToNumber(s: string): JsNumber {
    if s == "" then Num(0)
    else if AllDigits(s) then Num(DigitsValue(s))
    else NaN
  }

  /** Unary `+` on a property read: a leaf converts its text; an object
      (`"[object Object]"`) and `undefined` are NaN. */
  function NumberOf(v: Option<Value>): JsNumber {
    match v
    case Some(Leaf(t)) => ToNumber(t)
    case Some(Obj(_)) => NaN
    case None => NaN
  }

  /** `+current['id'] === +id`: strict equality of the two numbers, which NaN never satisfies. */
  predicate IdMatches(user: Fields, id: string) {
    var a := NumberOf(Get(user, "id"));
    var b := ToNumber(id);
    a.Num? && b.Num? && a.n == b.n
  }

  /** `USERS.find(current => +current['id'] === +id)`, as an index: the first user
      whose id matches, or `None` (the source's `undefined`) when none does. */
  function FindUser(users: seq<Fields>, id: string): (r: Option<nat>)
    ensures r.Some? ==> r.value < |users| && IdMatches(users[r.value], id)
    ensures r.Some? ==> forall j :: 0 <= j < r.value ==> !IdMatches(users[j], id)
    ensures r.None? <==> forall j :: 0 <= j < |users| ==> !IdMatches(users[j], id)
  {
    if |users| == 0 then None
    else if IdMatches(users[0], id) then Some(0)
    else
      match FindUser(users[1..], id)
      case Some(k) => Some(k + 1)
      case None => None
  }

  /** The lookup depends on nothing but which users match. */
  lemma {:induction false} FindUserSameMatches(a: seq<Fields>, b: seq<Fields>, id: string, id': string)
    requires |a| == |b|
    requires forall j :: 0 <= j < |a| ==> (IdMatches(a[j], id) <==> IdMatches(b[j], id'))
    ensures FindUser(a, id) == FindUser(b, id')
  {
    if |a| > 0 {
      assert IdMatches(a[0], id) <==> IdMatches(b[0], id');
      if !IdMatches(a[0], id) {
        FindUserSameMatches(a[1..], b[1..], id, id');
      }
    }
  }

  /** Ids compare as numbers: a leading zero in the requested id changes nothing. */
  lemma FindUserIgnoresLeadingZero(users: seq<Fields>, id: string)
    requires AllDigits(id)
    ensures FindUser(users, "0" + id) == FindUser(users, id)
  {
    DigitsValueLeadingZero(id);
    if id == "" {
      assert DigitsValue("0") == 0;
    }
    assert ToNumber("0" + id) == ToNumber(id);
    FindUserSameMatches(users, users, "0" + id, id);
  }

  /** `handleChangeInput`: `user[key] = value` on the user `find` returned. When no
      user matches, `find` gives `undefined`, the write throws and the store is
      left as it was (`None`). The key is written at the user's top level even when
      the input belongs to a nested object. */
  function ChangeInput(users: seq<Fields>, id: string, key: string, value: string): (r: Option<seq<Fields>>)
    ensures r.None? <==> forall j :: 0 <= j < |users| ==> !IdMatches(users[j], id)
    ensures r.Some? ==> |r.value| == |users|
    ensures r.Some? ==> var i := FindUser(users, id).value;
              && Get(r.value[i], key) == Some(Leaf(value))
              && (forall k :: k != key ==> Get(r.value[i], k) == Get(users[i], k))
              && (forall j :: 0 <= j < |users| && j != i ==> r.value[j] == users[j])
    ensures r.Some? ==> var i := FindUser(users, id).value;
              DistinctKeys(users[i]) ==> DistinctKeys(r.value[i])
    ensures r.Some? ==> var i := FindUser(users, id).value;
              && (HasKey(users[i], key) ==>
                    |r.value[i]| == |users[i]| &&
                    forall p :: 0 <= p < |users[i]| ==> r.value[i][p].0 == users[i][p].0)
              && (!HasKey(users[i], key) ==> r.value[i] == users[i] + [(key, Leaf(value))])
  {
    match FindUser(users, id)
    case None => None
    case Some(i) => Some(users[i := SetKey(users[i], key, Leaf(value))])
  }

  /** Reading the store back after an input change: the same user is found for the
      id and holds the new value under the key (the id input itself is read-only,
      so `key` is never "id"). */
  lemma ChangeInputReadBack(users: seq<Fields>, id: string, key: string, value: string)
    requires key != "id"
    requires exists j :: 0 <= j < |users| && IdMatches(users[j], id)
    ensures ChangeInput(users, id, key, value).Some?
    ensures var r := ChangeInput(users, id, key, value).value;
            && FindUser(r, id) == FindUser(users, id)
            && Get(r[FindUser(r, id).value], key) == Some(Leaf(value))
  {
  }

  /** A key that lives only inside a nested object (`city`, inside `address`) is
      added to the user's top level; the nested object keeps its old value. */
  lemma ChangeInputNestedKey(users: seq<Fields>, id: string, key: string, value: string)
    requires FindUser(users, id).Some?
    requires !HasKey(users[FindUser(users, id).value], key)
    ensures var i := FindUser(users, id).value;
            ChangeInput(users, id, key, value) == Some(users[i := users[i] + [(key, Leaf(value))]])
  {
  }

  /** With the record shape the service returns, editing the company's `name` input
      overwrites the user's own `name` and leaves the company as it was. */
  lemma CompanyNameOverwritesUserName(v: string)
    ensures var user := [("id", Leaf("1")), ("name", Leaf("Leanne Graham")),
                         ("company", Obj([("name", Leaf("Romaguera-Crona"))]))];
            var r := ChangeInput([user], "1", "name", v);
            && r.Some?
            && Get(r.value[0], "name") == Some(Leaf(v))
            && Get(r.value[0], "company") == Some(Obj([("name", Leaf("Romaguera-Crona"))]))
  {
    var user := [("id", Leaf("1")), ("name", Leaf("Leanne Graham")),
                 ("company", Obj([("name", Leaf("Romaguera-Crona"))]))];
    var company := Obj([("name", Leaf("Romaguera-Crona"))]);
    assert user[0].0 == "id";
    assert Get(user, "id") == Some(Leaf("1"));
    assert AllDigits("1") && ToNumber("1") == Num(DigitsValue("1"));
    assert IdMatches(user, "1");
    assert FindUser([user], "1") == Some(0);
    assert Get(user[2..], "company") == Some(company);
    assert Get(user, "company") == Some(company);
  }
}

=== FILE: strings.dfy ===
/** Character-level helpers shared by the router and the id comparison:
    decimal digit runs, suffixes and the value of a digit string. */
module Strings {

  predicate IsDigit(c: char) {
    '0' <= c <= '9'
  }

  /** The regular-expression class `\d+` without its non-emptiness: every character is a digit. */
  predicate AllDigits(s: string) {
    forall i :: 0 <= i < |s| ==> IsDigit(s[i])
  }

  /** The characters a regular expression's `.` does not match without the `s` flag. */
  predicate IsLineTerminator(c: char) {
    c == '\n' || c == '\r' || c == '\U{2028}' || c == '\U{2029}'
  }

  /** `s` holds no line terminator, so `^.*` can span all of it. */
  predicate SingleLine(s: string) {
    forall i :: 0 <= i < |s| ==> !IsLineTerminator(s[i])
  }

  predicate EndsWith(s: string, suffix: string) {
    |suffix| <= |s| && s[|s| - |suffix|..] == suffix
  }

  /** The longest run of digits at the end of `s`. */
  function TrailingDigits(s: string): (d: string)
    ensures |d| <= |s| && d == s[|s| - |d|..]
    ensures AllDigits(d)
    ensures |d| == |s| || !IsDigit(s[|s| - |d| - 1])
  {
    if |s| == 0 || !IsDigit(s[|s| - 1]) then ""
    else TrailingDigits(s[..|s| - 1]) + [s[|s| - 1]]
  }

  /** Appending a digit extends the trailing run by that digit. */
  lemma TrailingDigitsSnoc(t: string, c: char)
    requires IsDigit(c)
    ensures TrailingDigits(t + [c]) == TrailingDigits(t) + [c]
  {
  }

  /** A digit run that follows a non-digit (or the start of the string) is exactly the trailing run. */
  lemma {:induction false} TrailingDigitsOfSplit(a: string, d: string)
    requires AllDigits(d)
    requires |a| == 0 || !IsDigit(a[|a| - 1])
    ensures TrailingDigits(a + d) == d
  {
    if |d| == 0 {
      assert a + d == a;
    } else {
      var d', c := d[..|d| - 1], d[|d| - 1];
      assert d == d' + [c];
      assert a + d == (a + d') + [c];
      TrailingDigitsOfSplit(a, d');
      TrailingDigitsSnoc(a + d', c);
    }
  }

  function DigitValue(c: char): nat
    requires IsDigit(c)
    ensures DigitValue(c) < 10
  {
    (c - '0') as nat
  }

  /** The decimal value of a digit string, most significant digit first. */
  function DigitsValue(s: string): nat
    requires AllDigits(s)
  {
    if |s| == 0 then 0 else DigitsValue(s[..|s| - 1]) * 10 + DigitValue(s[|s| - 1])
  }

  /** Leading zeros do not change the value of a digit string. */
  lemma {:induction false} DigitsValueLeadingZero(s: string)
    requires AllDigits(s)
    ensures AllDigits("0" + s) && DigitsValue("0" + s) == DigitsValue(s)
  {
    var t := "0" + s;
    if |s| > 0 {
      assert t[..|t| - 1] == "0" + s[..|s| - 1];
      DigitsValueLeadingZero(s[..|s| - 1]);
    }
  }
}

=== FILE: wrappers.dfy ===
/** Option and Result, the typed stand-ins for JavaScript's `undefined` and for a
    rejected promise. */
module Wrappers {

  datatype Option<+T> = None | Some(value: T) {

    /** The value held, or `default` when there is none. */
    function GetOr(default: T): T {
      match this
      case Some(v) => v
      case None => default
    }
  }

  /** The outcome of an awaited call: the resolved value or the reason it was rejected. */
  datatype Result<+R, +E> = Success(value: R) | Failure(error: E)
}
